=== FILE: README.md ===
# Gaggle node: store, replication and membership, modelled in Dafny

`gaggle.js` runs one node of a small self-discovering cluster. Each node holds a
two-level key-value store (node id -> key -> value) that it serves over a REST API.
It announces every local change to the peers that discovery reports, and each peer
then pulls the whole store back. This project models as pure functions:

- the CRUD handlers of the store;
- the replication decisions (who is notified, what a pull does);
- the wholesale rebuild of the member list;
- the bounded diagnostic log.

It then proves what those handlers promise.

Files and modules:

- `maybe.dfy` (`Maybe`): the `Option` type used for failed fetches and thrown checks.
- `jsvalue.dfy` (`JsValue`): JavaScript values and `typeof`, which decides what an update accepts.
- `store.dfy` (`Store`): the store type, status codes, requested effects (broadcast, save), the seven CRUD handlers plus GET /api/store, and the frame predicates saying which entry a handler may touch.
- `diaglog.dfy` (`DiagLog`): the `log` function and its capacity of 21 entries.
- `membership.dfy` (`Membership`): `refreshMembers`.
- `replication.dfy` (`Replication`): `refreshStore` target selection and the whole-store pull.
- `gaggle.dfy` (`Gaggle`): the node state (`appStruct`) and the step taken for each event. An event is an API call, a refresh notice with the outcome of its fetch, or a discovery join/leave.
- `ownproperty.dfy` (`OwnProperty`): the handlers exactly as written with `hasOwnProperty` (see Findings).

Collaborators are inputs, not calls:

- The discovery host list is a parameter of the membership event.
- The result of the GET that a refresh notice triggers is a parameter: `Option<Store>`, with `None` meaning a transport error.
- `Date.now()` is a parameter `now`.
- `ip.address()` is the `local` field of the node state.
- Broadcast and save are returned as requests (`notify`, `save`) and are not performed.

Points where the code behaves differently from what one would expect of a store of scalar values; the model follows the code:

- Update admits any value whose `typeof` is not `object`, `function` or `symbol`. So `null` is refused (`typeof null` is `object`), although it is usually taken to be a scalar. A missing `value` (`undefined`) is accepted and stored.
- Every store or record sent over HTTP goes through JSON, which leaves out keys holding `undefined`. A key updated without a value is therefore held by the writer but never reaches a peer that pulls (`Gaggle.UndefinedDiverges`); replication is exact only for stores without such keys (`Gaggle.PushThenPullConverges`).
- Delete-key and update test `hasOwnProperty([key])`. The one-element array is converted to the key string, so the model treats it as `hasOwnProperty(key)`.
- POST `/api/store/refresh` is registered before POST `/api/store/:node`, and routes match the raw path without regard to case. So `Refresh` or `REFRESH` is a refresh notice, while the percent-encoded `%72efresh` creates the node `refresh` (`Gaggle.RefreshRouting`).

## Model

| member | source | states |
|---|---|---|
| Store.ReadStore | gaggle.js:122-124 | 200 with every node of the store, each record reduced to exactly the keys JSON can represent; this is the store itself when no key holds a value JSON leaves out; nothing changes and nothing is broadcast or saved |
| Store.WireRecord | gaggle.js:122-128 | a record sent through JSON keeps exactly the keys whose values JSON can represent, with their values |
| Store.Wire | gaggle.js:122-124 | the store sent through JSON has the same nodes, each record reduced to what JSON carries |
| Store.WireLossless | gaggle.js:122-124 | the JSON form equals the store exactly when no key holds undefined, a function or a symbol, and it is itself always clean |
| Store.ReadNode | gaggle.js:126-132 | 200 exactly when the node exists, with the record as JSON carries it (every key whose value JSON represents, and no other); otherwise 404 with no body; the store is never changed and no effect is requested |
| Store.ReadKey | gaggle.js:134-140 | 200 with the value exactly when both the node and the key exist, otherwise 404; the store is never changed and no effect is requested |
| Store.CreateNode | gaggle.js:176-193 | an existing node gives 409, with the store untouched and no effects; otherwise 201, the node maps to an empty record, every other node is unchanged, and one broadcast and one save are requested |
| Store.CreateKey | gaggle.js:196-217 | a missing node gives 404 and an existing key gives 409, both with the store untouched; otherwise 201, the key holds the empty string, and no other key or node changes |
| Store.UpdateKey | gaggle.js:256-269 | a missing node or key gives 404; a value that is an object, null, array, function or symbol gives 400 with the prior value kept; otherwise 200, only that key is replaced, and broadcast and save are requested |
| Store.DeleteNode | gaggle.js:223-236 | an absent node gives 404 with the store untouched; otherwise 200, exactly that node is removed, every other node is unchanged, and broadcast and save are requested |
| Store.DeleteKey | gaggle.js:239-252 | an absent node or key gives 404 with the store untouched; otherwise 200, exactly that key is removed, and nothing else changes |
| Store.HandlerDiscipline | gaggle.js:126-269 | for every handler: a refusal leaves the store untouched and requests nothing; a successful mutation requests exactly one broadcast and one save; a read never changes anything; only the named entry can change |
| Store.CreateTwiceConflicts | gaggle.js:178-179 | creating the same node twice gives 409 the second time, and the first record is kept |
| Store.DeleteUndoesCreateNode | gaggle.js:176-236 | deleting a node just created restores the previous store exactly |
| Store.DeleteUndoesCreateKey | gaggle.js:196-252 | deleting a key just created restores the previous store exactly |
| Store.UpdateUndo | gaggle.js:258-259 | writing back the prior (admissible) value after any update restores the previous store |
| Store.ReadAfterUpdate | gaggle.js:134-269 | after an accepted update a read returns the new value; after a refused one it returns the prior value |
| Store.ReadAfterDeleteKey | gaggle.js:134-252 | a deleted key reads as 404 while the node's other keys keep their values |
| Store.UndefinedIsNotServed | gaggle.js:122-124 | after a key is updated to undefined the writer still holds it, but the store that GET /api/store sends lacks it |
| JsValue.TypeOf | gaggle.js:258 | `typeof` answers "object" exactly for null, arrays and objects, and "undefined" only for undefined |
| JsValue.StorableValues | gaggle.js:258 | update admits exactly strings, numbers, booleans and undefined; null is refused |
| DiagLog.Append | gaggle.js:316-324 | a log within capacity stays within 21 entries; the new entry is last; below capacity nothing is dropped; at capacity exactly the oldest entry is dropped and the rest keep their order |
| DiagLog.AppendIsWindow | gaggle.js:316-324 | within capacity, one `log` call keeps exactly the newest 21 of the old entries plus the new one |
| DiagLog.AppendAllIsWindow | gaggle.js:316-324 | after any sequence of `log` calls the trail is the newest 21 entries of everything logged, in logging order |
| Membership.PushAllAppends | gaggle.js:303-305 | the copy loop appends the snapshot's entries, in order, to what it started with |
| Membership.RefreshMembers | gaggle.js:298-307 | after a rebuild the member list equals the discovery snapshot element for element |
| Membership.NothingStale | gaggle.js:301 | a previous member absent from the snapshot does not survive the rebuild |
| Membership.RebuildIdempotent | gaggle.js:298-307 | rebuilding twice from one snapshot equals rebuilding once, and the previous list has no influence |
| Replication.Targets | gaggle.js:144-158 | the local address is never a broadcast target, and there are at most as many notices as members |
| Replication.TargetsArePeers | gaggle.js:145-146 | the targets are exactly the addresses of the non-local members: one notice per such member, in member-list order |
| Replication.PeerIsNotified | gaggle.js:145-151 | any member whose address is not local receives a notice |
| Replication.Pull | gaggle.js:165-171 | a successful fetch replaces the local store with the fetched one; a failed fetch leaves it unchanged |
| Replication.PullDoesNotMerge | gaggle.js:166 | entries held only locally are lost on a successful pull, so there is no merge |
| Gaggle.Init | gaggle.js:328-337 | a node starts with an empty store and no members; its trail holds "Starting..." followed by an NFO or ERR line for the outcome of starting discovery, within capacity |
| Gaggle.RoutePost | gaggle.js:164-176 | a POST is a refresh notice exactly when its raw segment spells "refresh" with each letter in either case; any other segment is a create-node request for the decoded parameter |
| Gaggle.LowerIsRefresh | gaggle.js:164-176 | a segment lowers to "refresh" exactly when each of its seven characters is the lower- or upper-case letter of "refresh" at that position |
| Gaggle.RefreshRouting | gaggle.js:164-176 | "Refresh" and "REFRESH" are refresh notices, while "%72efresh" creates the node "refresh" |
| Gaggle.ApiStep | gaggle.js:126-269 | an API call applies the handler (next store, status and body are the handler's) and never changes members, log or local address; a successful mutation sends a refresh notice to every broadcast target and saves; a refused request or a read changes nothing, notifies no one and saves nothing |
| Gaggle.RefreshStep | gaggle.js:164-173 | the reply is 200 whatever the fetch outcome; a successful fetch makes the store equal to the fetched store and saves it; a failure leaves the store unchanged and logs an error; nothing is broadcast; the trail is the old trail after exactly one `log` call stamped with the current time |
| Gaggle.MembershipStep | gaggle.js:311-312 | a discovery join or leave replaces the member list with the snapshot and changes nothing else |
| Gaggle.NextKeepsValid | gaggle.js:316-324 | no event can take the trail past 21 entries |
| Gaggle.Ownership | gaggle.js:164-307 | only API calls and successful pulls change the store; only discovery events change the member list; the local address never changes |
| Gaggle.PushThenPullConverges | gaggle.js:122-173 | after a successful mutation at one node, a known peer is notified; if its pull of what GET /api/store serves succeeds, it holds the JSON form of that node's store, which is the store itself exactly when no key holds a value JSON leaves out |
| Gaggle.UndefinedDiverges | gaggle.js:122-173 | a PUT without a value succeeds at the writer, which keeps the key, while a peer that pulls the served store lacks it |
| Store.ScenarioCreateNode | gaggle.js:126-193 | creating node "A" in an empty store gives 201 and an empty record on read; creating it again gives 409 |
| Store.ScenarioCreateAndUpdateKey | gaggle.js:196-269 | creating key "k1" stores the empty string; updating it to "v" gives 200 and the read returns "v" |
| Store.ScenarioRefuseAndDelete | gaggle.js:239-269 | updating with an object gives 400 and keeps "v"; deleting the key gives 200 and a later read gives 404 |
| OwnProperty.HasOwn | gaggle.js:178 | `obj.hasOwnProperty(name)` throws exactly when `obj` has an own property named "hasOwnProperty"; otherwise it answers membership |
| OwnProperty.CreateNodeAsWritten | gaggle.js:176-193 | the handler as written: it agrees with the corrected one unless the store is shadowed, and then it answers 400 |
| OwnProperty.CreateKeyAsWritten | gaggle.js:196-217 | as written: it agrees with the corrected handler unless the store or the record is shadowed, and then it answers 400 |
| OwnProperty.DeleteNodeAsWritten | gaggle.js:223-236 | as written: it agrees with the corrected handler unless the store is shadowed, and then it answers 400 |
| OwnProperty.HasOwnKey | gaggle.js:135 | the two-level check throws exactly when the store or the named record is shadowed, and otherwise answers whether both node and key exist |
| OwnProperty.ReadKeyAsWritten | gaggle.js:134-140 | as written: it agrees with the corrected handler unless the store or record is shadowed, and then the request fails with 500 |
| OwnProperty.UpdateKeyAsWritten | gaggle.js:256-269 | as written: it agrees with the corrected handler unless the store or record is shadowed, and then the request fails with 500 |
| OwnProperty.DeleteKeyAsWritten | gaggle.js:239-252 | as written: it agrees with the corrected handler unless the store or record is shadowed, and then it answers 400 |
| OwnProperty.ReadNodeAsWritten | gaggle.js:126-132 | as written: it agrees with the corrected handler unless the store is shadowed, and then the request fails with 500 |
| OwnProperty.ShadowingNodeBreaksStore | gaggle.js:176-193 | creating the node "hasOwnProperty" succeeds; afterwards creating, deleting and reading fail as written, but succeed in the corrected handlers |
| OwnProperty.ShadowingKeyBreaksNode | gaggle.js:196-269 | once a record holds the key "hasOwnProperty", creating a key in that node answers 400, reading and updating it 500 and deleting it 400, where the corrected handlers succeed |
| OwnProperty.PullSpreadsShadowing | gaggle.js:166 | a pull of a shadowed store carries the breakage to the pulling node |

## Left out

- Express routing, `body-parser` and response objects. Handlers are functions from parameters and state to a reply. The routing fact that matters (the refresh route comes first and matches case-insensitively) is in `Gaggle.RoutePost`; percent-decoding of route parameters is the framework's and the decoded parameter is an input.
- The read-only endpoints `/api/status`, `/api/config`, `/api/log` and `/api/config/members`. They only echo state. Status also depends on `Date.now()` and `os` host facts.
- Argument parsing (`argparse`) and the cluster id.
- `writeStore` and `loadStore`. They are file I/O plus `JSON.stringify`/`JSON.parse`. A save is only a request flag (`save`). The race between out-of-order asynchronous saves is concurrency and is not modelled.
- The log lines written when a save completes or a notice fails to reach a peer. They come from asynchronous completions outside any handler. Only the two start-up lines (`Gaggle.Init`) and the refresh pull's own lines are modelled. `loadStore`'s completion line (gaggle.js:286, gaggle.js:289) is left out along with `loadStore`.
- The discovery transport and the REST client calls. The host list and the fetch outcome are inputs. A fetched body is taken to be a well-formed store.
- The start-up bootstrap in the delayed block (gaggle.js:340-372). Its callbacks run only after the loop has issued every GET, so it does not stop at the first successful peer. It also compares the enumeration key with the local address instead of a member's `address`. An ordered \"stop at the first success\" bootstrap is therefore not what the code does, and it is not modelled.
- The 400 branches for a non-string route parameter (gaggle.js:181-188, gaggle.js:200-207). A route parameter is always a string, so they cannot be taken. The corrected model has no 400 for create and delete. The reachable 400 caused by a thrown exception is covered under Findings.
- The node or key `__proto__` and other names with special meaning to JavaScript objects, apart from `hasOwnProperty`. The model treats every name as an ordinary property.
- Numbers are mathematical reals. No floating-point behaviour matters to the handlers, and JSON's mapping of non-finite numbers to `null` is not modelled.
- Store.ReadKey: states 200 with the value for every existing key, but `res.send` of a lone number takes it as the status code, so a key holding a number answers with that number as the status (404 for the value 404), and one holding a number that is not a valid status code fails with an error. Status codes outside the handlers' own categories are not modelled.
- Store.Wire: removes only the keys of a record that JSON leaves out; values nested inside arrays or objects are sent as they are. Such values can only arrive by a pull and have already been through JSON.
- What `writeStore` writes is the JSON form (`Store.Wire`) of the store; the save itself is only a request flag.

## Findings

| source | as written | input that shows it | evidently intended | confidence | as-written member | corrected member |
|---|---|---|---|---|---|---|
| gaggle.js:127-252 | Membership is tested with `store.hasOwnProperty(node)` and `store[node].hasOwnProperty(key)` on plain objects. A node or key named "hasOwnProperty" becomes an own property that shadows the method, and every later call throws. Create and delete then answer 400, and read and update answer 500. Pulls and saves spread this state to peers and to disk. | POST /api/store/hasOwnProperty (201), then POST /api/store/A (400), DELETE /api/store/hasOwnProperty (400), GET /api/store/hasOwnProperty (500) | every node or key name behaves as an ordinary entry | high, not executed | OwnProperty.CreateNodeAsWritten | Store.CreateNode |

=== FILE: diaglog.dfy ===
/** The bounded diagnostic trail: `log(type, msg)` drops the oldest entry once more
    than twenty are held, then appends, so the trail never exceeds twenty-one entries. */
module DiagLog {

  /** The `type` tags the modelled code writes */
  const InfoTag := "NFO"
  const ErrorTag := "ERR"

  /** `date` is the caller-supplied clock reading (`Date.now()` in the source) and `kind`
      the `type` tag */
  datatype LogEntry = LogEntry(date: int, kind: string, msg: string)

  const Capacity: nat := 21

  /** The last `n` elements of `xs` (all of them when there are at most `n`) */
  function LastN<T>(xs: seq<T>, n: nat): (r: seq<T>)
    ensures |r| == if |xs| <= n then |xs| else n
    ensures forall i :: 0 <= i < |r| ==> r[i] == xs[|xs| - |r| + i]
  {
    if |xs| <= n then xs else xs[|xs| - n..]
  }

  /** Appends one entry, dropping the oldest one first when more than twenty are held */
  function Append(log: seq<LogEntry>, e: LogEntry): (r: seq<LogEntry>)
    ensures |log| <= Capacity ==> |r| <= Capacity
    ensures |r| >= 1 && r[|r| - 1] == e
    ensures |log| < Capacity ==> r[..|r| - 1] == log
    ensures |log| >= Capacity ==> |r| == |log| && r[..|r| - 1] == log[1..]
  {
    var kept := if |log| > Capacity - 1 then log[1..] else log;
    kept + [e]
  }

  /** Within capacity, appending keeps exactly the newest `Capacity` entries */
  lemma AppendIsWindow(log: seq<LogEntry>, e: LogEntry)
    requires |log| <= Capacity
    ensures Append(log, e) == LastN(log + [e], Capacity)
  {
    if |log| == Capacity {
      assert (log + [e])[|log + [e]| - Capacity..] == log[1..] + [e];
    }
  }

  /** Logging `es` one after another, in order */
  function AppendAll(log: seq<LogEntry>, es: seq<LogEntry>): (r: seq<LogEntry>)
    decreases |es|
  {
    if es == [] then log else AppendAll(Append(log, es[0]), es[1..])
  }

  /** Taking the last `n` of a sequence and then appending loses nothing that the last
      `n` of the whole would keep */
  lemma LastNAbsorbs<T>(xs: seq<T>, ys: seq<T>, n: nat)
    ensures LastN(LastN(xs, n) + ys, n) == LastN(xs + ys, n)
  {
    var a := LastN(LastN(xs, n) + ys, n);
    var b := LastN(xs + ys, n);
    assert |a| == |b|;
    forall i | 0 <= i < |a|
      ensures a[i] == b[i]
    {
      var w := LastN(xs, n) + ys;
      assert a[i] == w[|w| - |a| + i];
      assert b[i] == (xs + ys)[|xs + ys| - |b| + i];
    }
  }

  /** The trail after any sequence of `log` calls is the newest `Capacity` entries of
      everything logged, in logging order: the oldest are dropped first and the order of
      the survivors is preserved. */
  lemma {:induction false} AppendAllIsWindow(log: seq<LogEntry>, es: seq<LogEntry>)
    requires |log| <= Capacity
    ensures AppendAll(log, es) == LastN(log + es, Capacity)
    ensures |AppendAll(log, es)| <= Capacity
    decreases |es|
  {
    if es == [] {
      assert log + es == log;
    } else {
      var next := Append(log, es[0]);
      AppendIsWindow(log, es[0]);
      AppendAllIsWindow(next, es[1..]);
      LastNAbsorbs(log + [es[0]], es[1..], Capacity);
      calc {
        AppendAll(log, es);
        AppendAll(next, es[1..]);
        LastN(next + es[1..], Capacity);
        LastN(LastN(log + [es[0]], Capacity) + es[1..], Capacity);
        LastN(log + [es[0]] + es[1..], Capacity);
        { assert log + [es[0]] + es[1..] == log + es; }
        LastN(log + es, Capacity);
      }
    }
  }
}

=== FILE: gaggle.dfy ===
/** One cluster node: the application state (store, member list, diagnostic trail) and
    its reaction to each event it handles: an API call on the store, a refresh notice from
    a peer together with the outcome of the pull it triggers, and a discovery join/leave. */
module Gaggle {
  import opened Maybe
  import opened JsValue
  import opened Store
  import opened DiagLog
  import opened Membership
  import opened Replication

  /** `local` is the node's own address (`ip.address()` in the source) */
  datatype NodeState = NodeState(local: Address, store: Store, members: seq<Member>, log: seq<LogEntry>)

  datatype Event =
    | Api(op: StoreOp)
      /** POST /api/store/refresh from `sender`, with the outcome of the GET of the
          sender's store that it issues (None when the transport failed) */
    | RefreshNotice(sender: Address, fetched: Option<Store>)
      /** a discovery `join` or `leave`, with the collaborator's host list at that moment */
    | MembershipChange(hosts: seq<Member>)

  /** What a step produces besides the next state: the HTTP status (None for a discovery
      event), the body, the addresses a refresh notice is posted to (each carrying the
      local address), and whether the store is written to disk */
  datatype Step = Step(next: NodeState, status: Option<Status>, body: Body, notify: seq<Address>, save: bool)

  ghost predicate Valid(n: NodeState)
  {
    |n.log| <= Capacity
  }

  /** Process start: empty store, no members, and the two lines logged before any event
      is handled: "Starting..." and the outcome of starting discovery */
  function Init(local: Address, now: int, discoveryStarted: bool): (n: NodeState)
    ensures Valid(n) && n.store == map[] && n.members == [] && n.local == local
    ensures |n.log| == 2 && n.log[0].msg == "Starting..."
    ensures n.log[1].kind == (if discoveryStarted then InfoTag else ErrorTag)
  {
    var started := Append([], LogEntry(now, InfoTag, "Starting..."));
    var discovery :=
      if discoveryStarted then LogEntry(now, InfoTag, "Host Discovery module is started.")
      else LogEntry(now, ErrorTag, "Host Discovery module Discovery can't start.");
    NodeState(local, map[], [], Append(started, discovery))
  }

  /** ASCII lower case, the only case folding a case-insensitive match on the letters of
      "refresh" can use */
  function LowerChar(c: char): (l: char)
    ensures 'A' <= c <= 'Z' ==> l as int == c as int + 32
    ensures !('A' <= c <= 'Z') ==> l == c
  {
    if 'A' <= c <= 'Z' then (c as int + 32) as char else c
  }

  function Lower(s: string): (l: string)
    ensures |l| == |s| && forall i :: 0 <= i < |s| ==> l[i] == LowerChar(s[i])
  {
    seq(|s|, i requires 0 <= i < |s| => LowerChar(s[i]))
  }

  /** The spellings of "refresh" that a case-insensitive match accepts, letter by letter */
  ghost predicate SpellsRefresh(raw: string)
  {
    |raw| == 7 && forall i :: 0 <= i < 7 ==> raw[i] == "refresh"[i] || raw[i] == "REFRESH"[i]
  }

  /** Lowering a segment gives "refresh" exactly for the spellings of "refresh" in any mix
      of letter case */
  lemma LowerIsRefresh(raw: string)
    ensures Lower(raw) == "refresh" <==> SpellsRefresh(raw)
  {
    if Lower(raw) == "refresh" {
      forall i | 0 <= i < 7
        ensures raw[i] == "refresh"[i] || raw[i] == "REFRESH"[i]
      {
        assert Lower(raw)[i] == LowerChar(raw[i]);
      }
    }
    if SpellsRefresh(raw) {
      assert Lower(raw) == "refresh";
    }
  }

  /** Express dispatch of a POST to /api/store/<raw>. Routes match the raw, still
      percent-encoded path without regard to case, and the refresh route is registered
      first; every other segment reaches the create-node handler with `param`, the
      segment as the framework decodes it. */
  function RoutePost(raw: string, param: NodeId, sender: Address, fetched: Option<Store>): (e: Event)
    ensures e.RefreshNotice? <==> SpellsRefresh(raw)
    ensures e.RefreshNotice? ==> e.sender == sender && e.fetched == fetched
    ensures !SpellsRefresh(raw) ==> e == Api(PostNode(param))
  {
    LowerIsRefresh(raw);
    if Lower(raw) == "refresh" then RefreshNotice(sender, fetched) else Api(PostNode(param))
  }

  /** Any capitalisation of "refresh" is a refresh notice, while the percent-encoded
      spelling "%72efresh" misses the route and creates the node "refresh" */
  lemma RefreshRouting(sender: Address, fetched: Option<Store>)
    ensures RoutePost("Refresh", "Refresh", sender, fetched).RefreshNotice?
    ensures RoutePost("REFRESH", "REFRESH", sender, fetched).RefreshNotice?
    ensures RoutePost("%72efresh", "refresh", sender, fetched) == Api(PostNode("refresh"))
  {
    assert Lower("Refresh") == "refresh";
    assert Lower("REFRESH") == "refresh";
    assert |Lower("%72efresh")| != |"refresh"|;
  }

  /** An API call: the handler's reply, then `refreshStore` and `writeStore` if it asked.
      A successful mutation notifies every non-local member and saves; a refused request
      or a read changes nothing, notifies no one and saves nothing. */
  function ApiStep(n: NodeState, op: StoreOp): (r: Step)
    ensures r.next.store == Handle(n.store, op).store && r.status == Some(Handle(n.store, op).status)
    ensures r.body == Handle(n.store, op).body
    ensures r.next.local == n.local && r.next.members == n.members && r.next.log == n.log
    ensures r.status.Some? && r.status.value != ServerError
    ensures r.status.value.IsSuccess() && !op.IsRead() ==> r.save && r.notify == Targets(n.members, n.local)
    ensures !r.status.value.IsSuccess() || op.IsRead() ==> !r.save && r.notify == [] && r.next == n
  {
    var reply := Handle(n.store, op);
    HandlerDiscipline(n.store, op);
    Step(n.(store := reply.store), Some(reply.status), reply.body,
         if reply.effects.broadcast then Targets(n.members, n.local) else [],
         reply.effects.save)
  }

  /** The refresh handler: it answers 200 at once; the pull it starts replaces the whole
      store and saves it when the fetch succeeds, and only logs when it fails */
  function RefreshStep(n: NodeState, sender: Address, fetched: Option<Store>, now: int): (r: Step)
    ensures r.status == Some(Ok) && r.notify == [] && r.body == NoBody
    ensures r.save <==> fetched.Some?
    ensures fetched.Some? ==> r.next.store == fetched.value
    ensures fetched.None? ==> r.next.store == n.store
    ensures r.next.local == n.local && r.next.members == n.members
    ensures |r.next.log| >= 1 && r.next.log[|r.next.log| - 1].kind == (if fetched.Some? then InfoTag else ErrorTag)
    ensures r.next.log == Append(n.log, r.next.log[|r.next.log| - 1]) && r.next.log[|r.next.log| - 1].date == now
  {
    var entry :=
      if fetched.Some? then LogEntry(now, InfoTag, "The store has been updated from " + sender + ".")
      else LogEntry(now, ErrorTag, "An update has been detected from " + sender + " but the store has not been updated.");
    Step(n.(store := Pull(n.store, fetched), log := Append(n.log, entry)), Some(Ok), NoBody, [], fetched.Some?)
  }

  /** `refreshMembers` on a join or leave: only the member list changes */
  function MembershipStep(n: NodeState, hosts: seq<Member>): (r: Step)
    ensures r.next == n.(members := hosts)
    ensures r.status == None && r.notify == [] && !r.save
  {
    Step(n.(members := RefreshMembers(n.members, hosts)), None, NoBody, [], false)
  }

  /** `now` is the clock reading used if the step logs */
  function Next(n: NodeState, e: Event, now: int): Step
  {
    match e
    case Api(op) => ApiStep(n, op)
    case RefreshNotice(sender, fetched) => RefreshStep(n, sender, fetched, now)
    case MembershipChange(hosts) => MembershipStep(n, hosts)
  }

  /** Every step keeps the trail within its capacity */
  lemma NextKeepsValid(n: NodeState, e: Event, now: int)
    requires Valid(n)
    ensures Valid(Next(n, e, now).next)
  {
  }

  /** State ownership: only API calls and pulls change the store, only discovery events
      change the member list, and the local address never changes */
  lemma Ownership(n: NodeState, e: Event, now: int)
    ensures var m := Next(n, e, now).next;
      && m.local == n.local
      && (m.store != n.store ==> e.Api? || (e.RefreshNotice? && e.fetched.Some?))
      && (m.members != n.members ==> e.MembershipChange?)
  {
  }

  /** Push-notify then pull: after a successful mutation at node `a`, a member `b` that `a`
      knows about is sent a notice; once `b` pulls what `a`'s GET /api/store serves, `b`
      holds `a`'s store as JSON carries it, which is all of it unless some key holds a
      value JSON leaves out */
  lemma PushThenPullConverges(a: NodeState, b: NodeState, op: StoreOp, i: nat, now: int)
    requires i < |a.members| && a.members[i].address == b.local && b.local != a.local
    requires !op.IsRead() && ApiStep(a, op).status.value.IsSuccess()
    ensures var ra := ApiStep(a, op);
      var served := ApiStep(ra.next, GetStore).body;
      var pulled := RefreshStep(b, a.local, Some(served.all), now).next.store;
      && b.local in ra.notify
      && served.StoreBody?
      && pulled == Wire(ra.next.store)
      && (pulled == ra.next.store <==> JsonClean(ra.next.store))
  {
    PeerIsNotified(a.members, a.local, i);
    WireLossless(ApiStep(a, op).next.store);
  }

  /** After a PUT without a value the writer and its peers disagree: the writer holds the
      key, and a peer that pulls the served store does not */
  lemma UndefinedDiverges(a: NodeState, b: NodeState, node: NodeId, key: Key, now: int)
    requires node in a.store && key in a.store[node]
    ensures var ra := ApiStep(a, PutKey(node, key, Undefined));
      var pulled := RefreshStep(b, a.local, Some(ApiStep(ra.next, GetStore).body.all), now).next.store;
      && ra.status == Some(Ok)
      && key in ra.next.store[node]
      && node in pulled && key !in pulled[node]
  {
    UndefinedIsNotServed(a.store, node, key);
  }
}

=== FILE: jsvalue.dfy ===
/** The JavaScript values a request body or a fetched store can carry, and the
    `typeof` classification that the update handler uses to admit or refuse a value. */
module JsValue {

  /** A JavaScript value as it arrives from a parsed JSON or url-encoded body.
      Numbers are kept as mathematical reals: no arithmetic is ever done on them. */
  datatype Value =
    | Undefined
    | Null
    | Bool(b: bool)
    | Num(x: real)
    | Str(s: string)
    | Arr(items: seq<Value>)
    | Obj(fields: map<string, Value>)
    | Func
    | Sym

  /** The result of the JavaScript `typeof` operator */
  datatype TypeTag = TUndefined | TObject | TBoolean | TNumber | TString | TFunction | TSymbol

  /** `typeof v`; note that `typeof null` is "object", as are arrays */
  function TypeOf(v: Value): (t: TypeTag)
    ensures t == TObject <==> (v.Null? || v.Arr? || v.Obj?)
    ensures t == TUndefined <==> v.Undefined?
  {
    match v
    case Undefined => TUndefined
    case Null => TObject
    case Bool(_) => TBoolean
    case Num(_) => TNumber
    case Str(_) => TString
    case Arr(_) => TObject
    case Obj(_) => TObject
    case Func => TFunction
    case Sym => TSymbol
  }

  /** The update handler's admission test: the type is neither 'object', 'function' nor 'symbol' */
  predicate Storable(v: Value)
  {
    TypeOf(v) != TObject && TypeOf(v) != TFunction && TypeOf(v) != TSymbol
  }

  /** JSON serialisation leaves out an object property whose value is `undefined`, a
      function or a symbol */
  predicate JsonOmits(v: Value)
  {
    v.Undefined? || v.Func? || v.Sym?
  }

  /** Exactly strings, numbers, booleans and `undefined` are admitted; `null`, arrays,
      objects, functions and symbols are refused. */
  lemma StorableValues(v: Value)
    ensures Storable(v) <==> (v.Str? || v.Num? || v.Bool? || v.Undefined?)
    ensures v.Null? ==> !Storable(v)
    ensures Storable(v) && JsonOmits(v) <==> v.Undefined?
  {
  }
}

=== FILE: maybe.dfy ===
/** The optional value used wherever an outcome may be absent: a fetch that failed,
    a property check that threw. */
module Maybe {

  datatype Option<+T> = None | Some(value: T)
}

=== FILE: membership.dfy ===
/** The member list, rebuilt wholesale from the discovery collaborator's current host
    list whenever a peer joins or leaves (`refreshMembers`). */
module Membership {

  type Address = string

  datatype Member = Member(address: Address)

  /** The copy loop: push every snapshot entry, in enumeration order, onto `acc` */
  function PushAll(acc: seq<Member>, hosts: seq<Member>): (r: seq<Member>)
    decreases |hosts|
  {
    if hosts == [] then acc else PushAll(acc + [hosts[0]], hosts[1..])
  }

  lemma {:induction false} PushAllAppends(acc: seq<Member>, hosts: seq<Member>)
    ensures PushAll(acc, hosts) == acc + hosts
    decreases |hosts|
  {
    if hosts != [] {
      PushAllAppends(acc + [hosts[0]], hosts[1..]);
      assert acc + [hosts[0]] + hosts[1..] == acc + hosts;
    }
  }

  /** `refreshMembers`: the previous list is discarded and the snapshot copied in order */
  function RefreshMembers(previous: seq<Member>, hosts: seq<Member>): (r: seq<Member>)
    ensures r == hosts
  {
    PushAllAppends([], hosts);
    PushAll([], hosts)
  }

  /** No member of the previous list survives a rebuild unless the snapshot holds it */
  lemma NothingStale(previous: seq<Member>, hosts: seq<Member>, m: Member)
    requires m in previous && m !in hosts
    ensures m !in RefreshMembers(previous, hosts)
  {
  }

  /** Rebuilding twice from the same snapshot gives the same list as rebuilding once,
      and the result does not depend on the previous list at all */
  lemma RebuildIdempotent(previous: seq<Member>, other: seq<Member>, hosts: seq<Member>)
    ensures RefreshMembers(RefreshMembers(previous, hosts), hosts) == RefreshMembers(previous, hosts)
    ensures RefreshMembers(previous, hosts) == RefreshMembers(other, hosts)
  {
  }
}

=== FILE: ownproperty.dfy ===
/** The handlers as written test membership with `obj.hasOwnProperty(name)`. The store
    and its records are plain objects, so a node or key literally named "hasOwnProperty"
    becomes an own property that shadows the inherited method, and from then on every such
    call on that object throws a TypeError. The create and delete handlers catch it and
    answer 400; the read and update handlers do not, and the framework answers 500.
    The rest of the model uses the handlers of module Store, where every name is an
    ordinary property name. */
module OwnProperty {
  import opened Maybe
  import opened JsValue
  import opened Store
  import Replication

  const Shadow := "hasOwnProperty"

  /** `obj.hasOwnProperty(name)`: None is the TypeError thrown once `obj` has an own
      property named "hasOwnProperty" (no value in a store can be a function) */
  function HasOwn<V>(obj: map<string, V>, name: string): (r: Option<bool>)
    ensures r.None? <==> Shadow in obj
    ensures r.Some? ==> (r.value <==> name in obj)
  {
    if Shadow in obj then None else Some(name in obj)
  }

  /** POST /api/store/:node as written: the thrown error is caught and answered with 400 */
  function CreateNodeAsWritten(s: Store, node: NodeId): (r: Reply)
    ensures Shadow in s ==> r == Refuse(s, BadRequest)
    ensures Shadow !in s ==> r == CreateNode(s, node)
  {
    match HasOwn(s, node)
    case None => Refuse(s, BadRequest)
    case Some(true) => Refuse(s, Conflict)
    case Some(false) => Reply(Created, NoBody, s[node := map[]], Mutated)
  }

  /** POST /api/store/:node/:key as written: both the store's and the record's check can
      throw, and either error is caught and answered with 400 */
  function CreateKeyAsWritten(s: Store, node: NodeId, key: Key): (r: Reply)
    ensures Shadow !in s && (node in s ==> Shadow !in s[node]) ==> r == CreateKey(s, node, key)
    ensures Shadow in s || (node in s && Shadow in s[node]) ==> r == Refuse(s, BadRequest)
  {
    match HasOwn(s, node)
    case None => Refuse(s, BadRequest)
    case Some(false) => Refuse(s, NotFound)
    case Some(true) =>
      match HasOwn(s[node], key)
      case None => Refuse(s, BadRequest)
      case Some(true) => Refuse(s, Conflict)
      case Some(false) => Reply(Created, NoBody, s[node := s[node][key := Str("")]], Mutated)
  }

  /** DELETE /api/store/:node as written: the thrown error is caught and answered with 400 */
  function DeleteNodeAsWritten(s: Store, node: NodeId): (r: Reply)
    ensures Shadow in s ==> r == Refuse(s, BadRequest)
    ensures Shadow !in s ==> r == DeleteNode(s, node)
  {
    match HasOwn(s, node)
    case None => Refuse(s, BadRequest)
    case Some(true) => Reply(Ok, NoBody, s - {node}, Mutated)
    case Some(false) => Refuse(s, NotFound)
  }

  /** GET /api/store/:node as written: the thrown error escapes the handler (500) */
  function ReadNodeAsWritten(s: Store, node: NodeId): (r: Reply)
    ensures Shadow in s ==> r == Refuse(s, ServerError)
    ensures Shadow !in s ==> r == ReadNode(s, node)
  {
    match HasOwn(s, node)
    case None => Refuse(s, ServerError)
    case Some(true) => Reply(Ok, RecordBody(WireRecord(s[node])), s, NoEffects)
    case Some(false) => Refuse(s, NotFound)
  }

  /** The key-level check shared by the key handlers: `s.hasOwnProperty(node) &&
      s[node].hasOwnProperty(key)`, where the second call is made only when the first
      answers true; None when either call throws */
  function HasOwnKey(s: Store, node: NodeId, key: Key): (r: Option<bool>)
    ensures r.None? <==> Shadow in s || (node in s && Shadow in s[node])
    ensures r.Some? ==> (r.value <==> node in s && key in s[node])
  {
    match HasOwn(s, node)
    case None => None
    case Some(false) => Some(false)
    case Some(true) => HasOwn(s[node], key)
  }

  /** GET /api/store/:node/:key as written: a thrown error escapes the handler (500) */
  function ReadKeyAsWritten(s: Store, node: NodeId, key: Key): (r: Reply)
    ensures HasOwnKey(s, node, key).None? ==> r == Refuse(s, ServerError)
    ensures HasOwnKey(s, node, key).Some? ==> r == ReadKey(s, node, key)
  {
    match HasOwnKey(s, node, key)
    case None => Refuse(s, ServerError)
    case Some(true) => Reply(Ok, ValueBody(s[node][key]), s, NoEffects)
    case Some(false) => Refuse(s, NotFound)
  }

  /** PUT /api/store/:node/:key as written: a thrown error escapes the handler (500) */
  function UpdateKeyAsWritten(s: Store, node: NodeId, key: Key, v: Value): (r: Reply)
    ensures HasOwnKey(s, node, key).None? ==> r == Refuse(s, ServerError)
    ensures HasOwnKey(s, node, key).Some? ==> r == UpdateKey(s, node, key, v)
  {
    match HasOwnKey(s, node, key)
    case None => Refuse(s, ServerError)
    case Some(false) => Refuse(s, NotFound)
    case Some(true) =>
      if !Storable(v) then Refuse(s, BadRequest)
      else Reply(Ok, NoBody, s[node := s[node][key := v]], Mutated)
  }

  /** DELETE /api/store/:node/:key as written: the thrown error is caught and answered 400 */
  function DeleteKeyAsWritten(s: Store, node: NodeId, key: Key): (r: Reply)
    ensures HasOwnKey(s, node, key).None? ==> r == Refuse(s, BadRequest)
    ensures HasOwnKey(s, node, key).Some? ==> r == DeleteKey(s, node, key)
  {
    match HasOwnKey(s, node, key)
    case None => Refuse(s, BadRequest)
    case Some(true) => Reply(Ok, NoBody, s[node := s[node] - {key}], Mutated)
    case Some(false) => Refuse(s, NotFound)
  }

  /** Creating the node "hasOwnProperty" succeeds, after which no node can be created,
      the poisoning node cannot be deleted and no node can be read; the corrected
      handlers treat the name like any other. */
  lemma ShadowingNodeBreaksStore(s: Store)
    requires Shadow !in s && "A" !in s
    ensures var r1 := CreateNodeAsWritten(s, Shadow);
      && r1.status == Created
      && CreateNodeAsWritten(r1.store, "A").status == BadRequest
      && DeleteNodeAsWritten(r1.store, Shadow).status == BadRequest
      && ReadNodeAsWritten(r1.store, Shadow).status == ServerError
      && CreateNode(r1.store, "A").status == Created
      && DeleteNode(r1.store, Shadow).status == Ok
      && ReadNode(r1.store, Shadow).status == Ok
  {
  }

  /** The same at key level: once a record holds the key "hasOwnProperty", no key of that
      node can be created, read, updated or deleted, while the corrected handlers work */
  lemma ShadowingKeyBreaksNode(s: Store, node: NodeId)
    requires Shadow !in s && node in s && Shadow !in s[node] && "k" !in s[node]
    ensures var r1 := CreateKeyAsWritten(s, node, Shadow);
      && r1.status == Created
      && CreateKeyAsWritten(r1.store, node, "k").status == BadRequest
      && ReadKeyAsWritten(r1.store, node, Shadow).status == ServerError
      && UpdateKeyAsWritten(r1.store, node, Shadow, Str("v")).status == ServerError
      && DeleteKeyAsWritten(r1.store, node, Shadow).status == BadRequest
      && CreateKey(r1.store, node, "k").status == Created
      && ReadKey(r1.store, node, Shadow).status == Ok
      && UpdateKey(r1.store, node, Shadow, Str("v")).status == Ok
      && DeleteKey(r1.store, node, Shadow).status == Ok
  {
  }

  /** A pull spreads the poisoning: a node whose store is replaced by a peer's poisoned
      store can no longer create nodes either */
  lemma PullSpreadsShadowing(peer: Store, mine: Store, node: NodeId)
    requires Shadow in peer
    ensures CreateNodeAsWritten(Replication.Pull(mine, Some(peer)), node).status == BadRequest
  {
  }
}

=== FILE: replication.dfy ===
/** The decisions around replication: whom a local change is announced to
    (`refreshStore`), and what a pull of a peer's whole store does to the local copy. */
module Replication {
  import opened Maybe
  import opened Membership
  import opened Store

  /** The addresses `refreshStore` posts a refresh notice to: each member whose address
      is not the local address, in member-list order */
  function Targets(members: seq<Member>, local: Address): (r: seq<Address>)
    ensures |r| <= |members|
    ensures local !in r
  {
    if members == [] then []
    else (if members[0].address != local then [members[0].address] else []) + Targets(members[1..], local)
  }

  /** Every position moved one place on, as when a list loses its first element */
  function Shift(xs: seq<nat>): (r: seq<nat>)
    ensures |r| == |xs| && forall i :: 0 <= i < |xs| ==> r[i] == xs[i] + 1
  {
    seq(|xs|, i requires 0 <= i < |xs| => xs[i] + 1)
  }

  /** Reference definition: the positions in the member list of every member that is not
      the local node, in increasing order */
  ghost function PeerPositions(members: seq<Member>, local: Address): seq<nat>
  {
    if members == [] then []
    else
      var rest := Shift(PeerPositions(members[1..], local));
      if members[0].address != local then [0] + rest else rest
  }

  ghost predicate StrictlyIncreasing(xs: seq<nat>)
  {
    forall j, k :: 0 <= j < k < |xs| ==> xs[j] < xs[k]
  }

  /** `PeerPositions` has one position per target, in increasing order, all within the list */
  lemma {:induction false} PeerPositionsInRange(members: seq<Member>, local: Address)
    ensures var p := PeerPositions(members, local);
      && |Targets(members, local)| == |p|
      && StrictlyIncreasing(p)
      && forall j :: 0 <= j < |p| ==> p[j] < |members|
  {
    if members != [] {
      PeerPositionsInRange(members[1..], local);
    }
  }

  /** The j-th target is the address of the member at the j-th position of `PeerPositions` */
  lemma {:induction false} PeerPositionsAddress(members: seq<Member>, local: Address)
    ensures var p := PeerPositions(members, local); var t := Targets(members, local);
      forall j :: 0 <= j < |p| && j < |t| && p[j] < |members| ==> t[j] == members[p[j]].address
  {
    if members != [] {
      PeerPositionsAddress(members[1..], local);
      PeerPositionsInRange(members[1..], local);
      var p' := PeerPositions(members[1..], local);
      var t' := Targets(members[1..], local);
      var p := PeerPositions(members, local);
      var t := Targets(members, local);
      var d := if members[0].address != local then 1 else 0;
      forall j | 0 <= j < |p| && j < |t| && p[j] < |members|
        ensures t[j] == members[p[j]].address
      {
        if j >= d {
          assert p[j] == p'[j - d] + 1;
          assert t[j] == t'[j - d];
          assert members[p[j]] == members[1..][p'[j - d]];
        }
      }
    }
  }

  /** `PeerPositions` holds a position exactly when the member there is not the local node */
  lemma {:induction false} PeerPositionsComplete(members: seq<Member>, local: Address)
    ensures var p := PeerPositions(members, local);
      forall i :: 0 <= i < |members| ==> (i in p <==> members[i].address != local)
  {
    if members != [] {
      PeerPositionsComplete(members[1..], local);
      var p' := PeerPositions(members[1..], local);
      var sp := Shift(p');
      var p := PeerPositions(members, local);
      forall i | 0 <= i < |members|
        ensures i in p <==> members[i].address != local
      {
        if i > 0 {
          assert members[i] == members[1..][i - 1];
          assert i - 1 in p' ==> i in sp;
          assert i in sp ==> i - 1 in p';
        } else {
          assert 0 !in sp;
        }
      }
    }
  }

  /** The broadcast goes to exactly the non-local members: one notice per such member,
      none to a local one, in member-list order */
  lemma TargetsArePeers(members: seq<Member>, local: Address)
    ensures var p := PeerPositions(members, local); var t := Targets(members, local);
      && |t| == |p|
      && StrictlyIncreasing(p)
      && (forall j :: 0 <= j < |p| ==> p[j] < |members| && t[j] == members[p[j]].address)
      && (forall i :: 0 <= i < |members| ==> (i in p <==> members[i].address != local))
  {
    PeerPositionsInRange(members, local);
    PeerPositionsAddress(members, local);
    PeerPositionsComplete(members, local);
  }

  /** A member at a position `i` whose address is not local receives a notice */
  lemma PeerIsNotified(members: seq<Member>, local: Address, i: nat)
    requires i < |members| && members[i].address != local
    ensures members[i].address in Targets(members, local)
  {
    TargetsArePeers(members, local);
    var p := PeerPositions(members, local);
    var j :| 0 <= j < |p| && p[j] == i;
    assert Targets(members, local)[j] == members[i].address;
  }

  /** The store after a pull of the sender's store: the fetched store replaces the local
      one whole (no merge); a failed fetch leaves the local store as it was */
  function Pull(local: Store, fetched: Option<Store>): (r: Store)
    ensures fetched.Some? ==> r == fetched.value
    ensures fetched.None? ==> r == local
  {
    match fetched
    case Some(remote) => remote
    case None => local
  }

  /** No merge: a key held only locally is gone after a successful pull that lacks it */
  lemma PullDoesNotMerge(local: Store, remote: Store, node: NodeId)
    requires node in local && node !in remote
    ensures node !in Pull(local, Some(remote))
  {
  }
}

=== FILE: store.dfy ===
/** The replicated store (node-id -> key -> value) and its CRUD handlers, each a pure
    function from the request's parameters and the current store to a reply: a status,
    a body, the next store and the side effects the handler asks for. */
module Store {
  import opened JsValue

  type NodeId = string
  type Key = string
  type Record = map<Key, Value>
  type Store = map<NodeId, Record>

  /** Result categories of the HTTP handlers (200, 201, 400, 404, 409 and 500) */
  datatype Status = Ok | Created | BadRequest | NotFound | Conflict | ServerError {
    predicate IsSuccess() { Ok? || Created? }
  }

  /** Side effects a handler requests after replying: one replication broadcast
      (`refreshStore`) and one save to disk (`writeStore`). */
  datatype Effects = Effects(broadcast: bool, save: bool)

  const NoEffects := Effects(false, false)
  const Mutated := Effects(true, true)

  datatype Body = NoBody | RecordBody(record: Record) | ValueBody(value: Value) | StoreBody(all: Store)

  datatype Reply = Reply(status: Status, body: Body, store: Store, effects: Effects)

  /** The reply of a handler that refuses the request: the store and effects are untouched */
  function Refuse(s: Store, status: Status): (r: Reply)
    ensures r.status == status && r.store == s && r.effects == NoEffects && r.body == NoBody
  {
    Reply(status, NoBody, s, NoEffects)
  }

  // ----- Frame predicates: which entries of the store an operation may touch

  /** Every node other than `node` is present in `t` iff in `s`, with the same record */
  ghost predicate OthersUnchanged(s: Store, t: Store, node: NodeId)
  {
    forall n :: n != node ==> (n in s <==> n in t) && (n in s ==> s[n] == t[n])
  }

  /** `t` differs from `s` at most in key `key` of the node `node` */
  ghost predicate OnlyKeyTouched(s: Store, t: Store, node: NodeId, key: Key)
  {
    && OthersUnchanged(s, t, node)
    && (node in s <==> node in t)
    && (node in s ==>
          forall k :: k != key ==> (k in s[node] <==> k in t[node]) && (k in s[node] ==> s[node][k] == t[node][k]))
  }

  // ----- What a reply carries on the wire

  /** A record as JSON serialisation sends it: the keys whose value JSON can represent */
  function WireRecord(rec: Record): (w: Record)
    ensures forall k :: k in w <==> k in rec && !JsonOmits(rec[k])
    ensures forall k :: k in w ==> w[k] == rec[k]
  {
    map k | k in rec && !JsonOmits(rec[k]) :: rec[k]
  }

  /** The store as GET /api/store sends it (and as `writeStore` writes it): every node,
      each record without the keys JSON leaves out */
  function Wire(s: Store): (w: Store)
    ensures w.Keys == s.Keys
    ensures forall n :: n in s ==> w[n] == WireRecord(s[n])
  {
    map n | n in s :: WireRecord(s[n])
  }

  /** No value in the store is one that JSON leaves out */
  ghost predicate JsonClean(s: Store)
  {
    forall n, k :: n in s && k in s[n] ==> !JsonOmits(s[n][k])
  }

  /** The wire form loses nothing exactly when the store is clean, and it is always clean */
  lemma WireLossless(s: Store)
    ensures Wire(s) == s <==> JsonClean(s)
    ensures JsonClean(Wire(s))
  {
    if JsonClean(s) {
      forall n | n in s
        ensures WireRecord(s[n]) == s[n]
      {
      }
    }
    if Wire(s) == s {
      forall n, k | n in s && k in s[n]
        ensures !JsonOmits(s[n][k])
      {
        assert k in Wire(s)[n];
      }
    }
  }

  // ----- Reads

  /** GET /api/store: the whole store, as JSON carries it */
  function ReadStore(s: Store): (r: Reply)
    ensures r.status == Ok && r.store == s && r.effects == NoEffects
    ensures r.body.StoreBody? && r.body.all.Keys == s.Keys && JsonClean(r.body.all)
    ensures JsonClean(s) ==> r.body.all == s
    ensures forall n :: n in s ==> r.body.all[n] == WireRecord(s[n])
  {
    WireLossless(s);
    Reply(Ok, StoreBody(Wire(s)), s, NoEffects)
  }

  /** GET /api/store/:node: the record, as JSON carries it */
  function ReadNode(s: Store, node: NodeId): (r: Reply)
    ensures r.store == s && r.effects == NoEffects
    ensures r.status == Ok <==> node in s
    ensures r.status != Ok ==> r.status == NotFound && r.body == NoBody
    ensures node in s ==> r.body.RecordBody? && r.body.record.Keys <= s[node].Keys
    ensures node in s ==> forall k :: k in s[node] && !JsonOmits(s[node][k]) ==>
                                      k in r.body.record && r.body.record[k] == s[node][k]
    ensures node in s ==> forall k :: k in r.body.record ==> !JsonOmits(s[node][k])
  {
    if node in s then Reply(Ok, RecordBody(WireRecord(s[node])), s, NoEffects)
    else Refuse(s, NotFound)
  }

  /** GET /api/store/:node/:key */
  function ReadKey(s: Store, node: NodeId, key: Key): (r: Reply)
    ensures r.store == s && r.effects == NoEffects
    ensures r.status == Ok <==> node in s && key in s[node]
    ensures r.status != Ok ==> r.status == NotFound && r.body == NoBody
    ensures node in s && key in s[node] ==> r.body.ValueBody? && r.body.value == s[node][key]
  {
    if node in s && key in s[node] then Reply(Ok, ValueBody(s[node][key]), s, NoEffects)
    else Refuse(s, NotFound)
  }

  // ----- Mutations

  /** POST /api/store/:node. The source's 400 branches (a non-string route parameter,
      an exception) cannot be taken by a string node id under ordinary property names. */
  function CreateNode(s: Store, node: NodeId): (r: Reply)
    ensures node in s ==> r == Refuse(s, Conflict)
    ensures node !in s ==>
              && r.status == Created && r.effects == Mutated
              && node in r.store && r.store[node] == map[]
              && OthersUnchanged(s, r.store, node)
  {
    if node in s then Refuse(s, Conflict)
    else Reply(Created, NoBody, s[node := map[]], Mutated)
  }

  /** POST /api/store/:node/:key: a new key starts as the empty string */
  function CreateKey(s: Store, node: NodeId, key: Key): (r: Reply)
    ensures node !in s ==> r == Refuse(s, NotFound)
    ensures node in s && key in s[node] ==> r == Refuse(s, Conflict)
    ensures node in s && key !in s[node] ==>
              && r.status == Created && r.effects == Mutated
              && node in r.store && OnlyKeyTouched(s, r.store, node, key)
              && key in r.store[node] && r.store[node][key] == Str("")
  {
    if node !in s then Refuse(s, NotFound)
    else if key in s[node] then Refuse(s, Conflict)
    else Reply(Created, NoBody, s[node := s[node][key := Str("")]], Mutated)
  }

  /** PUT /api/store/:node/:key with body field `value`. Existence is checked before the
      value's type, so a missing key answers 404 even for a refused value. */
  function UpdateKey(s: Store, node: NodeId, key: Key, v: Value): (r: Reply)
    ensures !(node in s && key in s[node]) ==> r == Refuse(s, NotFound)
    ensures node in s && key in s[node] && !Storable(v) ==> r == Refuse(s, BadRequest)
    ensures node in s && key in s[node] && Storable(v) ==>
              && r.status == Ok && r.effects == Mutated
              && node in r.store && OnlyKeyTouched(s, r.store, node, key)
              && key in r.store[node] && r.store[node][key] == v
  {
    if !(node in s && key in s[node]) then Refuse(s, NotFound)
    else if !Storable(v) then Refuse(s, BadRequest)
    else Reply(Ok, NoBody, s[node := s[node][key := v]], Mutated)
  }

  /** DELETE /api/store/:node: removes the node with all its keys */
  function DeleteNode(s: Store, node: NodeId): (r: Reply)
    ensures node !in s ==> r == Refuse(s, NotFound)
    ensures node in s ==>
              && r.status == Ok && r.effects == Mutated
              && node !in r.store && OthersUnchanged(s, r.store, node)
  {
    if node in s then Reply(Ok, NoBody, s - {node}, Mutated)
    else Refuse(s, NotFound)
  }

  /** DELETE /api/store/:node/:key */
  function DeleteKey(s: Store, node: NodeId, key: Key): (r: Reply)
    ensures !(node in s && key in s[node]) ==> r == Refuse(s, NotFound)
    ensures node in s && key in s[node] ==>
              && r.status == Ok && r.effects == Mutated
              && node in r.store && OnlyKeyTouched(s, r.store, node, key)
              && key !in r.store[node]
  {
    if node in s && key in s[node] then Reply(Ok, NoBody, s[node := s[node] - {key}], Mutated)
    else Refuse(s, NotFound)
  }

  // ----- Dispatch over the store routes

  datatype StoreOp =
    | GetStore
    | GetNode(node: NodeId)
    | GetKey(node: NodeId, key: Key)
    | PostNode(node: NodeId)
    | PostKey(node: NodeId, key: Key)
    | PutKey(node: NodeId, key: Key, value: Value)
    | DelNode(node: NodeId)
    | DelKey(node: NodeId, key: Key)
  {
    predicate IsRead() { GetStore? || GetNode? || GetKey? }
  }

  function Handle(s: Store, op: StoreOp): Reply
  {
    match op
    case GetStore => ReadStore(s)
    case GetNode(n) => ReadNode(s, n)
    case GetKey(n, k) => ReadKey(s, n, k)
    case PostNode(n) => CreateNode(s, n)
    case PostKey(n, k) => CreateKey(s, n, k)
    case PutKey(n, k, v) => UpdateKey(s, n, k, v)
    case DelNode(n) => DeleteNode(s, n)
    case DelKey(n, k) => DeleteKey(s, n, k)
  }

  /** The store changed in at most the one entry the operation names */
  ghost predicate TouchesOnlyTarget(s: Store, t: Store, op: StoreOp)
  {
    match op
    case PostNode(n) => OthersUnchanged(s, t, n)
    case DelNode(n) => OthersUnchanged(s, t, n)
    case PostKey(n, k) => OnlyKeyTouched(s, t, n, k)
    case PutKey(n, k, _) => OnlyKeyTouched(s, t, n, k)
    case DelKey(n, k) => OnlyKeyTouched(s, t, n, k)
    case _ => s == t
  }

  /** Every handler either refuses (store untouched, nothing broadcast or saved) or
      succeeds; a successful mutation touches only its own entry and requests exactly
      one broadcast and one save, and a read never changes anything. */
  lemma HandlerDiscipline(s: Store, op: StoreOp)
    ensures var r := Handle(s, op);
      && (!r.status.IsSuccess() ==> r.store == s && r.effects == NoEffects)
      && (r.status.IsSuccess() && !op.IsRead() ==> r.effects == Mutated)
      && (op.IsRead() ==> r.store == s && r.effects == NoEffects)
      && TouchesOnlyTarget(s, r.store, op)
      && r.status != ServerError
  {
  }

  /** Creating an existing node is a conflict that preserves the existing record */
  lemma CreateTwiceConflicts(s: Store, node: NodeId)
    ensures var s1 := CreateNode(s, node).store;
      && CreateNode(s1, node).status == Conflict
      && CreateNode(s1, node).store == s1
      && ReadNode(s1, node).status == Ok
  {
  }

  /** Deleting a freshly created node restores the store exactly */
  lemma DeleteUndoesCreateNode(s: Store, node: NodeId)
    requires node !in s
    ensures DeleteNode(CreateNode(s, node).store, node).store == s
  {
  }

  /** Deleting a freshly created key restores the store exactly */
  lemma DeleteUndoesCreateKey(s: Store, node: NodeId, key: Key)
    requires node in s && key !in s[node]
    ensures DeleteKey(CreateKey(s, node, key).store, node, key).store == s
  {
    var t := CreateKey(s, node, key).store;
    assert t[node] - {key} == s[node];
    assert t[node := t[node] - {key}] == s;
  }

  /** Writing back the previous value undoes an update, whatever was written, provided the
      previous value is one the handler admits (a value pulled from a peer need not be) */
  lemma UpdateUndo(s: Store, node: NodeId, key: Key, v: Value)
    requires node in s && key in s[node] && Storable(s[node][key])
    ensures UpdateKey(UpdateKey(s, node, key, v).store, node, key, s[node][key]).store == s
  {
    var t := UpdateKey(s, node, key, v).store;
    if Storable(v) {
      assert t[node][key := s[node][key]] == s[node];
      assert t[node := t[node][key := s[node][key]]] == s;
    } else {
      assert s[node][key := s[node][key]] == s[node];
      assert s[node := s[node][key := s[node][key]]] == s;
    }
  }

  /** A successful update is visible to the next read of that key, and a refused one
      leaves the previous value readable */
  lemma ReadAfterUpdate(s: Store, node: NodeId, key: Key, v: Value)
    requires node in s && key in s[node]
    ensures var r := UpdateKey(s, node, key, v);
      && (Storable(v) ==> ReadKey(r.store, node, key).body == ValueBody(v))
      && (!Storable(v) ==> ReadKey(r.store, node, key).body == ValueBody(s[node][key]))
  {
  }

  /** A key updated to `undefined` (a PUT without a value) is held locally but is not
      in the store that GET /api/store sends, so peers that pull never see it */
  lemma UndefinedIsNotServed(s: Store, node: NodeId, key: Key)
    requires node in s && key in s[node]
    ensures var t := UpdateKey(s, node, key, Undefined).store;
      && key in t[node]
      && key !in ReadStore(t).body.all[node]
  {
  }

  /** A deleted key reads as 404; the rest of its node is still readable */
  lemma ReadAfterDeleteKey(s: Store, node: NodeId, key: Key, other: Key)
    requires node in s && key in s[node] && other in s[node] && other != key
    ensures var t := DeleteKey(s, node, key).store;
      && ReadKey(t, node, key).status == NotFound
      && ReadKey(t, node, other).body == ValueBody(s[node][other])
  {
  }

  // ----- A create, update, refuse and delete sequence, one step at a time

  /** Creating node "A" in an empty store answers 201, the node reads as an empty
      record, and creating it again answers 409 */
  lemma ScenarioCreateNode()
    ensures CreateNode(map[], "A") == Reply(Created, NoBody, map["A" := map[]], Mutated)
    ensures ReadNode(map["A" := map[]], "A").body == RecordBody(map[])
    ensures CreateNode(map["A" := map[]], "A").status == Conflict
  {
  }

  /** Creating key "k1" answers 201 and an update to "v" answers 200 and reads back */
  lemma ScenarioCreateAndUpdateKey()
    ensures CreateKey(map["A" := map[]], "A", "k1").store == map["A" := map["k1" := Str("")]]
    ensures var r := UpdateKey(map["A" := map["k1" := Str("")]], "A", "k1", Str("v"));
      r.status == Ok && r.store == map["A" := map["k1" := Str("v")]]
    ensures ReadKey(map["A" := map["k1" := Str("v")]], "A", "k1").body == ValueBody(Str("v"))
  {
    assert map["k1" := Str("")]["k1" := Str("v")] == map["k1" := Str("v")];
  }

  /** An object value answers 400 and keeps "v"; deleting the key answers 200 and a read
      then answers 404 */
  lemma ScenarioRefuseAndDelete()
    ensures var s := map["A" := map["k1" := Str("v")]];
      && UpdateKey(s, "A", "k1", Obj(map["x" := Num(1.0)])) == Refuse(s, BadRequest)
      && DeleteKey(s, "A", "k1").status == Ok
      && ReadKey(DeleteKey(s, "A", "k1").store, "A", "k1").status == NotFound
  {
  }
}
